=== FILE: README.md ===
# tsuzumi RAG chat: the per-turn logic of the chat page

The chat page of the tsuzumi RAG demo (`app/tsuzumi_RAG_Chat_Demo.py`, function
`main()`) is mostly Streamlit widgets and Azure/LangChain wiring. Four pieces of
plain sequential logic sit inside it, and this project lifts them out as pure
Dafny functions and proves what they promise:

- **Citations** (`citations.dfy`): the retrieved documents' `source` metadata is
  turned into numbered labels `[[i]](src)`. Documents without a usable source
  are skipped. Each source is kept once, and the order is first-seen.
- **History** (`history.dfy`): a committed turn appends the raw user message and
  then the assistant's answer. The log is then cut to its last `message_num`
  entries. The clear button empties it.
- **Contextualize** (`contextualize.dfy`): the first question of a conversation
  goes to the retriever as typed. A follow-up question is first rewritten by the
  rewrite chain.
- **Streaming** (`streaming.dfy`): the answer is the concatenation of the
  streamed fragments. Each partial render is the answer so far plus the cursor
  `■`. The final render is the answer alone.

`turns.dfy` puts the four together in the order `main()` runs them: one turn, and
one rerun of the page, which initializes the log, handles the clear button and
runs the turn when a message was sent. `decimal.dfy` renders the citation
numbers the way Python formats an int, and `wrappers.dfy` holds `Option`.

The collaborators are parameters:

- the rewrite chain is `(log, text) -> Option<string>`;
- the retriever is `query -> Option<seq<Doc>>`;
- the generation chain is `(log, docs, text) -> Stream`.

A collaborator that raises is `None`, or a `Stream` whose `completed` flag is
false. The exception ends the rerun before the log is extended at line 233, so
the turn has no effect on the history.

`main()` builds all three afresh on every rerun (lines 142-147). The retriever
depends on sliders read on that rerun and on an index the upload pages may have
rewritten, and a model call need not repeat its answer. A session is therefore a
sequence of reruns that each carry their own collaborators, so a failed turn can
be followed by a successful retry of the same text.

Facts about `main()` that the model keeps:

- The history cap comes from a slider with range 5 to 50 and default 10 (line
  114). It is read again on every rerun, so it can differ from one turn to the
  next.
- The cap is applied only after a committed turn (lines 239-240). A rerun that
  lowers the slider without sending a message leaves a longer log as it is, and
  the next turn hands that whole log to both chains (lines 183 and 203) before
  its own commit cuts it.
- `main()` passes the whole `chat_log` to the rewrite chain and uses its output
  unchanged. Whatever `get_contextualize_prompt_chain` does inside `src.utils` is
  not modelled.
- A failing rewrite is not replaced by the raw text. The exception ends the turn.
- The clear button is handled before the new message is read, in the same rerun.

## Model

| member | source | states |
|---|---|---|
| Citations.FirstSeenDistinctAndComplete | app/tsuzumi_RAG_Chat_Demo.py:210-219 | the collected sources contain no duplicate, and a string is among them exactly when some retrieved document carries it as a non-empty `source` |
| Citations.FirstSeenOrder | app/tsuzumi_RAG_Chat_Demo.py:213-219 | a source listed before another occurs among the documents before every occurrence of that other source (first-seen order) |
| Citations.FirstSeenUnique | app/tsuzumi_RAG_Chat_Demo.py:210-220 | any list that holds each usable source exactly once, in first-seen order, is the list the loop builds, so the three properties determine the citations completely |
| Citations.SourcelessDocIgnored | app/tsuzumi_RAG_Chat_Demo.py:214-216 | a document with no metadata, no `source` key or an empty source changes nothing, wherever it stands in the retrieved list |
| Citations.Labels | app/tsuzumi_RAG_Chat_Demo.py:220 | there is one label per source, and the i-th label is `[[i]](src_i)`, numbered consecutively from 1 |
| Citations.LabelRoundTrip | app/tsuzumi_RAG_Chat_Demo.py:220 | a label `[[n]](src)` reads back as exactly `n` and `src`, whatever characters the source holds |
| Citations.LabelsRoundTrip | app/tsuzumi_RAG_Chat_Demo.py:220 | the i-th label of a citation list reads back as number i+1 and the i-th source, so numbering loses and reorders nothing |
| Citations.ExtractCitations | app/tsuzumi_RAG_Chat_Demo.py:210-220 | the one-pass loop with a `seen` set and labels numbered by `len(sources)+1` yields exactly the numbered first-seen sources |
| Citations.CitationLine | app/tsuzumi_RAG_Chat_Demo.py:209-223 | a citation line is shown exactly when some retrieved document has a usable source. It is the join of every label, in first-seen order, and starts with the label `[[1]](…)` of the first such source |
| Citations.JoinAppend | app/tsuzumi_RAG_Chat_Demo.py:223 | joining two non-empty runs of labels puts exactly one space between them. With `Join([x]) == x` this is `" ".join` |
| Citations.CitationLineExample | app/tsuzumi_RAG_Chat_Demo.py:209-223 | documents with sources A, B, A, C and one without metadata render the line `[[1]](A) [[2]](B) [[3]](C)` |
| Citations.DedupExample | app/tsuzumi_RAG_Chat_Demo.py:210-220 | documents with sources A, B, A, C and one without metadata give `[[1]](A)`, `[[2]](B)`, `[[3]](C)` |
| Decimal.NatToString | app/tsuzumi_RAG_Chat_Demo.py:220 | the number in a label is a non-empty digit string without a leading zero |
| Decimal.ParseNatToString | app/tsuzumi_RAG_Chat_Demo.py:220 | the rendered number reads back as the number itself |
| History.Truncate | app/tsuzumi_RAG_Chat_Demo.py:239-240 | the capped log is a suffix of the log, of length min(len, message_num), and it is the log itself when it was not over the cap |
| History.Commit | app/tsuzumi_RAG_Chat_Demo.py:233-240 | after a turn the log has length min(old+2, message_num), it is a suffix of the old log plus the raw user text and the full answer, and it ends with those two messages |
| History.CommitAfterClear | app/tsuzumi_RAG_Chat_Demo.py:160-161 | after the clear button, the next turn leaves exactly its user message and its answer |
| History.TruncateAbsorbs | app/tsuzumi_RAG_Chat_Demo.py:239-240 | capping, extending and capping again equals extending and capping once, so an earlier cap never loses what a later one would keep |
| History.CommitAllIsSuffix | app/tsuzumi_RAG_Chat_Demo.py:233-240 | whatever cap each turn used, the log is a run of the most recent messages of the conversation, in their original order |
| History.CommitAllLastTurn | app/tsuzumi_RAG_Chat_Demo.py:233-240 | right after a turn the log is within that turn's cap, whatever the earlier caps were, and ends with that turn's user text and answer |
| History.CommitAllKeepsMostRecent | app/tsuzumi_RAG_Chat_Demo.py:233-240 | when every turn uses the same cap and the starting log is within it, the log is exactly the last message_num messages of the whole conversation, in order |
| History.CommitCutsToCap | app/tsuzumi_RAG_Chat_Demo.py:239-240 | a log longer than the current cap is cut to exactly the cap by the next commit |
| Contextualize.Contextualize | app/tsuzumi_RAG_Chat_Demo.py:182-185 | with an empty log the query is the user text, with a non-empty log it is the rewrite chain's result for the whole log and the raw text, and a failed query is only possible when the log is non-empty and the rewrite failed |
| Contextualize.EmptyLogIgnoresRewriter | app/tsuzumi_RAG_Chat_Demo.py:182-185 | with an empty log any two rewrite chains, even a failing one, give the same query, the user text, so the chain is not consulted |
| Contextualize.NonEmptyLogUsesRewriter | app/tsuzumi_RAG_Chat_Demo.py:182-183 | with a non-empty log the query is the chain's result for that log and that text |
| Streaming.ConcatAppend | app/tsuzumi_RAG_Chat_Demo.py:204 | accumulating fragments distributes over splitting the stream: the text of `a + b` is the text of `a` followed by the text of `b` |
| Streaming.Partials | app/tsuzumi_RAG_Chat_Demo.py:203-205 | there is one partial render per fragment, and the i-th is the text of the first i fragments followed by `■` |
| Streaming.Renders | app/tsuzumi_RAG_Chat_Demo.py:199-206 | there is one render per fragment plus one. The i-th render is the text of the first i fragments followed by `■`, and the last render is the full answer with no cursor |
| Streaming.StreamResponse | app/tsuzumi_RAG_Chat_Demo.py:199-206 | the one-pass loop that appends each fragment and renders the answer with the cursor, then once without, yields the in-order concatenation of the fragments and exactly the renders described by `Renders` |
| Streaming.PartialIsPrefixOfAnswer | app/tsuzumi_RAG_Chat_Demo.py:203-206 | every partial render ends in the cursor, and without it the render is a prefix of the final answer |
| Turns.RunTurn | app/tsuzumi_RAG_Chat_Demo.py:182-240 | a turn commits exactly when rewrite, retrieval and stream all succeed. A failure leaves the log unchanged. On success the retriever gets the rewritten question, or the raw text on a first turn. The answer is generated from the raw text and the pre-turn log, the renders are those of that stream, and the committed log ends with the raw text and the full answer, within the cap |
| Turns.Rerun | app/tsuzumi_RAG_Chat_Demo.py:155-240 | without a message the rerun only initializes or clears the log. With a message, starting from the cleared or kept log, a successful turn leaves the last entries of the starting log followed by that message and its answer. A failed turn leaves the starting log. A log within the cap stays within it, and after a clear at most one exchange remains |
| Turns.Step | app/tsuzumi_RAG_Chat_Demo.py:155-240 | one rerun under that rerun's slider value and collaborators gives the log `Rerun` gives. A committing rerun leaves it within that value and appends its exchange to the conversation since the last clear. Any other rerun leaves the session as it was, or empty after a clear |
| Turns.ReplayLogIsSuffix | app/tsuzumi_RAG_Chat_Demo.py:155-240 | however the slider moves and whatever each rerun's collaborators do, the log is a run of the most recent messages of the conversation since the last clear, in order |
| Turns.RerunsStayBounded | app/tsuzumi_RAG_Chat_Demo.py:114-240 | from a fresh session, no sequence of reruns, slider moves and per-rerun collaborator behaviours grows the log past 50. Right after a committing rerun the log is within that rerun's slider value |
| Turns.FixedSliderKeepsMostRecent | app/tsuzumi_RAG_Chat_Demo.py:155-240 | while the slider stays at message_num, whatever each rerun's collaborators do, the log is exactly the last message_num messages of the conversation since the last clear |
| Turns.RetryAfterFailure | app/tsuzumi_RAG_Chat_Demo.py:142-240 | a message whose turn fails leaves a fresh session empty, and sending it again with collaborators that succeed commits exactly that message and its answer |
| Turns.LoweredSliderKeepsLog | app/tsuzumi_RAG_Chat_Demo.py:166-240 | a rerun without a message keeps a log longer than the new slider value unchanged |
| Turns.FailedStreamCommitsNothing | app/tsuzumi_RAG_Chat_Demo.py:203-236 | a generation stream that raises part-way leaves the log as it was before the rerun |

## Left out

- Streamlit widgets, sidebar, sliders, columns, popovers and the replay of earlier messages (lines 28-114, 169-179, 225-230) are display only. The history-size slider enters the model only as each rerun's `message_num`, in the range 5 to 50.
- Credential entry, the Azure connection test and model/embedding client construction (lines 15-20, 53-90, 117-139) are network and credential I/O.
- `get_contextualize_prompt_chain`, `get_chain` and `pull_from_faiss` live in `src.utils`, which is not part of this model. The rewrite chain, the generation chain and the retriever are therefore opaque parameters.
- The vector index is not modelled, so neither is its score-threshold / top-k search. That includes the `k=3` keyword passed at line 189 and the failure to load the index at lines 146-153.
- The ingestion pages (PDF upload, sitemap loading) are not part of this model.
- The debug `print`s (lines 186, 190-196, 241) have no effect on state.
- Citations.SourceOf: metadata values are strings. Other truthy or falsy metadata values (numbers, `None` stored under `source`) are not modelled.
- History.Truncate: requires a positive cap. Python's `log[-0:]` would keep the whole log, but the slider never yields 0.
- History.CommitAllKeepsMostRecent: holds only when the cap is the same on every turn. With a slider that moves between turns, the log is still a suffix of the conversation (`History.CommitAllIsSuffix`, `Turns.ReplayLogIsSuffix`) but not always the most recent message_num of it.
- Turns.FixedSliderKeepsMostRecent: holds only while the slider does not move. A raised slider keeps fewer messages than it allows until enough turns are committed, and a lowered one keeps more until the next commit (`Turns.LoweredSliderKeepsLog`).
- Turns.RerunsStayBounded: bounds the log by 50, and by the current slider value only right after a commit, because a lowered slider does not cut the log until then.

=== FILE: citations.dfy ===
/** Source citations shown under an answer: one numbered label `[[i]](src)`
    per distinct, non-empty `source` of the retrieved documents, in the order
    in which each source is first met. */
module Citations {
  import opened Wrappers
  import Decimal

  /** A retrieved document: its text and its optional metadata mapping. */
  datatype Doc = Doc(pageContent: string, metadata: Option<map<string, string>>)

  const SourceKey: string := "source"

  /** The document's usable source: `(doc.metadata or {}).get("source")`, kept
      only when it is truthy, i.e. present and non-empty. */
  function SourceOf(d: Doc): Option<string> {
    var meta := d.metadata.GetOr(map[]);
    if SourceKey in meta && meta[SourceKey] != "" then Some(meta[SourceKey]) else None
  }

  /** Some document of `docs` carries the usable source `s`. */
  ghost predicate HasSource(docs: seq<Doc>, s: string) {
    exists k :: 0 <= k < |docs| && SourceOf(docs[k]) == Some(s)
  }

  predicate NoDuplicates<T(==)>(xs: seq<T>) {
    forall i, j :: 0 <= i < j < |xs| ==> xs[i] != xs[j]
  }

  lemma HeadIsElement<T>(xs: seq<T>)
    requires |xs| > 0
    ensures xs[0] in xs
  {
  }

  function Elems<T>(xs: seq<T>): set<T> {
    set x | x in xs
  }

  lemma ElemsSnoc<T>(xs: seq<T>, x: T)
    ensures Elems(xs + [x]) == Elems(xs) + {x}
  {
  }

  /** The distinct usable sources of `docs`, in first-seen order: the list the
      loop over the retrieved documents builds before numbering. */
  function FirstSeen(docs: seq<Doc>): seq<string> {
    if |docs| == 0 then []
    else
      var prev := FirstSeen(docs[..|docs| - 1]);
      match SourceOf(docs[|docs| - 1])
      case None => prev
      case Some(s) => if s in prev then prev else prev + [s]
  }

  /** The first-seen list names no source twice, and names a string exactly
      when some document carries it as a usable source. */
  lemma {:induction false} FirstSeenDistinctAndComplete(docs: seq<Doc>)
    ensures NoDuplicates(FirstSeen(docs))
    ensures forall s :: s in FirstSeen(docs) <==> HasSource(docs, s)
  {
    if |docs| > 0 {
      FirstSeenDistinctAndComplete(docs[..|docs| - 1]);
      forall s ensures HasSource(docs, s) <==> HasSource(docs[..|docs| - 1], s) || SourceOf(docs[|docs| - 1]) == Some(s) {
        HasSourceSnoc(docs, s);
      }
    }
  }

  /** One more document extends the first-seen list by its source exactly
      when that source is usable and new. */
  lemma FirstSeenStep(docs: seq<Doc>, i: nat)
    requires i < |docs|
    ensures var prev := FirstSeen(docs[..i]);
            var src := SourceOf(docs[i]);
            FirstSeen(docs[..i + 1]) == if src.Some? && src.value !in prev then prev + [src.value] else prev
  {
    assert docs[..i + 1][..i] == docs[..i];
  }

  /** Each listed source occurs among `docs` before every occurrence of any
      source listed after it. */
  ghost predicate FirstSeenOrdered(docs: seq<Doc>, r: seq<string>) {
    forall i, j, k :: 0 <= i < j < |r| && 0 <= k < |docs| && SourceOf(docs[k]) == Some(r[j]) ==> HasSource(docs[..k], r[i])
  }

  /** First-seen order: a source listed before another occurs in the documents
      before every occurrence of that other one. */
  lemma {:induction false} FirstSeenOrder(docs: seq<Doc>)
    ensures FirstSeenOrdered(docs, FirstSeen(docs))
  {
    var r := FirstSeen(docs);
    if |docs| > 0 {
      var n := |docs| - 1;
      var prefix := docs[..n];
      var prev := FirstSeen(prefix);
      FirstSeenOrder(prefix);
      FirstSeenDistinctAndComplete(prefix);
      forall i, j, k | 0 <= i < j < |r| && 0 <= k < |docs| && SourceOf(docs[k]) == Some(r[j])
        ensures HasSource(docs[..k], r[i])
      {
        assert r[i] == prev[i];
        if j == |prev| {
          // r[j] is new, so it does not occur before the last document
          assert !HasSource(prefix, r[j]);
          assert k == n;
          assert r[i] in prev;
          var k' :| 0 <= k' < |prefix| && SourceOf(prefix[k']) == Some(r[i]);
          assert docs[..k][k'] == prefix[k'];
          assert SourceOf(docs[..k][k']) == Some(r[i]);
        } else {
          assert r[j] == prev[j];
          if k < n {
            assert prefix[k] == docs[k];
            assert prefix[..k] == docs[..k];
          } else {
            assert r[j] in prev;
            var k0 :| 0 <= k0 < |prefix| && SourceOf(prefix[k0]) == Some(r[j]);
            assert SourceOf(prefix[k0]) == Some(prev[j]);
            assert HasSource(prefix[..k0], prev[i]);
            var k' :| 0 <= k' < k0 && SourceOf(prefix[..k0][k']) == Some(r[i]);
            assert docs[..k][k'] == prefix[..k0][k'];
            assert SourceOf(docs[..k][k']) == Some(r[i]);
          }
        }
      }
    }
  }

  /** The usable sources of a non-empty list: those of all but its last
      document, plus the last document's own. */
  lemma HasSourceSnoc(docs: seq<Doc>, x: string)
    requires |docs| > 0
    ensures HasSource(docs, x) <==> HasSource(docs[..|docs| - 1], x) || SourceOf(docs[|docs| - 1]) == Some(x)
  {
    var prefix := docs[..|docs| - 1];
    if HasSource(prefix, x) {
      var k :| 0 <= k < |prefix| && SourceOf(prefix[k]) == Some(x);
      assert docs[k] == prefix[k];
    }
    if HasSource(docs, x) && SourceOf(docs[|docs| - 1]) != Some(x) {
      var k :| 0 <= k < |docs| && SourceOf(docs[k]) == Some(x);
      assert prefix[k] == docs[k];
    }
  }

  /** First-seen order survives dropping the last document and a tail of the list. */
  lemma OrderedDropLast(docs: seq<Doc>, r: seq<string>, m: nat)
    requires |docs| > 0 && m <= |r|
    requires FirstSeenOrdered(docs, r)
    ensures FirstSeenOrdered(docs[..|docs| - 1], r[..m])
  {
    var prefix := docs[..|docs| - 1];
    forall i, j, k | 0 <= i < j < m && 0 <= k < |prefix| && SourceOf(prefix[k]) == Some(r[..m][j])
      ensures HasSource(prefix[..k], r[..m][i])
    {
      assert prefix[k] == docs[k] && prefix[..k] == docs[..k];
    }
  }

  /** In a list in first-seen order, a source listed before some other one
      already occurs before the last document. */
  lemma ListedEarlierOccursEarlier(docs: seq<Doc>, r: seq<string>, p: nat, j: nat)
    requires |docs| > 0 && p < j < |r|
    requires forall s :: s in r <==> HasSource(docs, s)
    requires FirstSeenOrdered(docs, r)
    ensures HasSource(docs[..|docs| - 1], r[p])
  {
    assert r[j] in r;
    var k :| 0 <= k < |docs| && SourceOf(docs[k]) == Some(r[j]);
    assert HasSource(docs[..k], r[p]);
    var k' :| 0 <= k' < k && SourceOf(docs[..k][k']) == Some(r[p]);
    assert docs[..|docs| - 1][k'] == docs[k'];
  }

  /** In a list in first-seen order, a source that only the last document
      carries comes last. */
  lemma NewSourceIsLast(docs: seq<Doc>, r: seq<string>, p: nat)
    requires |docs| > 0 && p < |r|
    requires forall s :: s in r <==> HasSource(docs, s)
    requires FirstSeenOrdered(docs, r)
    requires !HasSource(docs[..|docs| - 1], r[p])
    ensures p == |r| - 1
  {
    if p < |r| - 1 {
      ListedEarlierOccursEarlier(docs, r, p, |r| - 1);
    }
  }

  /** The first-seen list is the only list that names every usable source once
      and keeps first-seen order: any list with those three properties is it. */
  lemma {:induction false} FirstSeenUnique(docs: seq<Doc>, r: seq<string>)
    requires NoDuplicates(r)
    requires forall s :: s in r <==> HasSource(docs, s)
    requires FirstSeenOrdered(docs, r)
    ensures r == FirstSeen(docs)
  {
    if |docs| == 0 {
      if |r| > 0 {
        HeadIsElement(r);
      }
    } else {
      var n := |docs| - 1;
      var prefix := docs[..n];
      var src := SourceOf(docs[n]);
      if src.None? || HasSource(prefix, src.value) {
        forall x ensures x in r <==> HasSource(prefix, x) {
          HasSourceSnoc(docs, x);
        }
        OrderedDropLast(docs, r, |r|);
        assert r[..|r|] == r;
        FirstSeenUnique(prefix, r);
      } else {
        var s := src.value;
        HasSourceSnoc(docs, s);
        var p :| 0 <= p < |r| && r[p] == s;
        NewSourceIsLast(docs, r, p);
        var r' := r[..|r| - 1];
        assert r == r' + [s];
        forall x ensures x in r' <==> HasSource(prefix, x) {
          HasSourceSnoc(docs, x);
          if x in r' {
            var i :| 0 <= i < |r'| && r'[i] == x;
            assert r[i] == x && r[i] != r[p];
          }
        }
        OrderedDropLast(docs, r, |r| - 1);
        FirstSeenUnique(prefix, r');
        FirstSeenDistinctAndComplete(prefix);
      }
    }
  }

  /** A document without a usable source (no metadata, no `source` key, or an
      empty one) contributes nothing, wherever it stands among the others. */
  lemma {:induction false} SourcelessDocIgnored(a: seq<Doc>, d: Doc, b: seq<Doc>)
    requires SourceOf(d) == None
    ensures FirstSeen(a + [d] + b) == FirstSeen(a + b)
  {
    if |b| == 0 {
      assert (a + [d] + b)[..|a|] == a;
      assert a + b == a;
    } else {
      var b' := b[..|b| - 1];
      SourcelessDocIgnored(a, d, b');
      assert (a + [d] + b)[..|a + [d] + b| - 1] == a + [d] + b';
      assert (a + b)[..|a + b| - 1] == a + b';
    }
  }

  /** The label of the `n`-th citation: `[[n]](src)`. */
  function Label(n: nat, src: string): string {
    "[[" + Decimal.NatToString(n) + "]](" + src + ")"
  }

  /** Numbers the sources consecutively from 1. */
  function Labels(srcs: seq<string>): (r: seq<string>)
    ensures |r| == |srcs|
    ensures forall i :: 0 <= i < |srcs| ==> r[i] == Label(i + 1, srcs[i])
  {
    if |srcs| == 0 then []
    else Labels(srcs[..|srcs| - 1]) + [Label(|srcs|, srcs[|srcs| - 1])]
  }

  /** Appending one more source appends exactly its label, numbered after the others. */
  lemma LabelsSnoc(srcs: seq<string>, s: string)
    ensures Labels(srcs + [s]) == Labels(srcs) + [Label(|srcs| + 1, s)]
  {
    assert (srcs + [s])[..|srcs|] == srcs;
  }

  /** Reads a label back into its number and its source. */
  function ParseLabel(l: string): Option<(nat, string)> {
    if |l| < 2 || l[..2] != "[[" then None
    else
      var rest := l[2..];
      var k := Decimal.LeadingDigits(rest);
      if k > 0 && |rest| >= k + 4 && rest[k..k + 3] == "]](" && rest[|rest| - 1] == ')'
      then Some((Decimal.ParseDigits(rest[..k]), rest[k + 3..|rest| - 1]))
      else None
  }

  /** Every label is read back as the number and source it was made from,
      whatever characters the source contains. */
  lemma LabelRoundTrip(n: nat, src: string)
    ensures ParseLabel(Label(n, src)) == Some((n, src))
  {
    var d := Decimal.NatToString(n);
    var l := Label(n, src);
    var rest := l[2..];
    assert l[..2] == "[[";
    assert rest == d + ("]](" + src + ")");
    Decimal.LeadingDigitsOfAppend(d, "]](" + src + ")");
    assert rest[..|d|] == d;
    assert rest[|d| + 3..|rest| - 1] == src;
    Decimal.ParseNatToString(n);
  }

  /** The i-th label (counting from 0) reads back as number i + 1 and the
      i-th source: numbering is consecutive from 1 and loses no source. */
  lemma LabelsRoundTrip(srcs: seq<string>)
    ensures forall i :: 0 <= i < |srcs| ==> ParseLabel(Labels(srcs)[i]) == Some((i + 1, srcs[i]))
  {
    forall i | 0 <= i < |srcs|
      ensures ParseLabel(Labels(srcs)[i]) == Some((i + 1, srcs[i]))
    {
      LabelRoundTrip(i + 1, srcs[i]);
    }
  }

  /** The citation labels for the retrieved documents, computed as the
      application does it: one pass, a set of sources already seen, a
      list of labels numbered by its own length. */
  method ExtractCitations(docs: seq<Doc>) returns (sources: seq<string>)
    ensures sources == Labels(FirstSeen(docs))
  {
    sources := [];
    var seen: set<string> := {};
    ghost var found: seq<string> := [];
    var i := 0;
    while i < |docs|
      invariant 0 <= i <= |docs|
      invariant found == FirstSeen(docs[..i])
      invariant seen == Elems(found)
      invariant sources == Labels(found)
    {
      FirstSeenStep(docs, i);
      var src := SourceOf(docs[i]);
      if src.Some? && src.value !in seen {
        LabelsSnoc(found, src.value);
        ElemsSnoc(found, src.value);
        seen := seen + {src.value};
        found := found + [src.value];
        sources := sources + [Label(|sources| + 1, src.value)];
      }
      i := i + 1;
    }
    assert docs[..|docs|] == docs;
  }

  predicate IsPrefix(p: string, s: string) {
    |p| <= |s| && s[..|p|] == p
  }

  /** Labels joined by single spaces, as `" ".join(sources)`. */
  function Join(labels: seq<string>): (r: string)
    ensures |labels| > 0 ==> IsPrefix(labels[0], r)
  {
    if |labels| == 0 then ""
    else if |labels| == 1 then labels[0]
    else labels[0] + " " + Join(labels[1..])
  }

  /** A single label is rendered alone, with no separator. */
  lemma JoinSingleton(x: string)
    ensures Join([x]) == x
  {
  }

  /** Joining two non-empty runs of labels puts exactly one space between
      them; with `JoinSingleton` this pins `Join` down to `" ".join`. */
  lemma {:induction false} JoinAppend(a: seq<string>, b: seq<string>)
    requires |a| > 0 && |b| > 0
    ensures Join(a + b) == Join(a) + " " + Join(b)
  {
    assert (a + b)[0] == a[0];
    assert (a + b)[1..] == a[1..] + b;
    if |a| > 1 {
      JoinAppend(a[1..], b);
    }
  }

  /** What is rendered as the citation line: nothing when no document was
      retrieved or none had a usable source, otherwise every label, in order,
      separated by single spaces. */
  function CitationLine(docs: seq<Doc>): (r: Option<string>)
    ensures r.Some? <==> exists s :: HasSource(docs, s)
    ensures r.Some? ==> r.value == Join(Labels(FirstSeen(docs)))
    ensures r.Some? ==> |FirstSeen(docs)| > 0 && IsPrefix(Label(1, FirstSeen(docs)[0]), r.value)
  {
    FirstSeenDistinctAndComplete(docs);
    var labels := Labels(FirstSeen(docs));
    if |docs| == 0 || |labels| == 0 then None
    else
      assert FirstSeen(docs)[0] in FirstSeen(docs);
      Some(Join(labels))
  }

  /** The example's citation line, as rendered. */
  lemma CitationLineExample()
    ensures CitationLine(ExampleDocs()) == Some("[[1]](A)" + " " + "[[2]](B)" + " " + "[[3]](C)")
  {
    DedupExample();
    var docs := ExampleDocs();
    assert HasSource(docs, "A") by {
      assert SourceOf(docs[0]) == Some("A");
    }
    JoinThree("[[1]](A)", "[[2]](B)", "[[3]](C)");
  }

  lemma JoinThree(x: string, y: string, z: string)
    ensures Join([x, y, z]) == x + " " + y + " " + z
  {
    assert [x, y, z] == [x] + [y, z];
    assert [y, z] == [y] + [z];
    JoinAppend([x], [y, z]);
    JoinAppend([y], [z]);
    JoinSingleton(x);
    JoinSingleton(y);
    JoinSingleton(z);
  }

  /** Documents with sources A, B, A, C and one without metadata yield three
      citations, A, B and C, numbered 1 to 3. */
  lemma DedupExample()
    ensures FirstSeen(ExampleDocs()) == ["A", "B", "C"]
    ensures Labels(FirstSeen(ExampleDocs())) == ["[[1]](A)", "[[2]](B)", "[[3]](C)"]
  {
    ExampleAfterFour();
    var docs := ExampleDocs();
    assert SourceOf(docs[4]) == None;
    FirstSeenStep(docs, 4);
    assert docs[..5] == docs;
    ExampleLabels();
  }

  function ExampleDocs(): seq<Doc> {
    [WithSource("A"), WithSource("B"), WithSource("A"), WithSource("C"), Doc("", None)]
  }

  lemma ExampleAfterTwo()
    ensures FirstSeen(ExampleDocs()[..2]) == ["A", "B"]
  {
    var docs := ExampleDocs();
    assert SourceOf(docs[0]) == Some("A");
    assert SourceOf(docs[1]) == Some("B");
    assert docs[..0] == [];
    FirstSeenStep(docs, 0);
    FirstSeenStep(docs, 1);
  }

  lemma ExampleAfterFour()
    ensures FirstSeen(ExampleDocs()[..4]) == ["A", "B", "C"]
  {
    ExampleAfterTwo();
    var docs := ExampleDocs();
    assert SourceOf(docs[2]) == Some("A");
    assert SourceOf(docs[3]) == Some("C");
    FirstSeenStep(docs, 2);
    FirstSeenStep(docs, 3);
  }

  /** The label of a one-digit number, character by character. */
  lemma OneDigitLabel(n: nat, src: string)
    requires n < 10
    ensures Label(n, src) == ['[', '[', Decimal.DigitChar(n), ']', ']', '('] + src + [')']
  {
  }

  lemma ExampleLabels()
    ensures Labels(["A", "B", "C"]) == ["[[1]](A)", "[[2]](B)", "[[3]](C)"]
  {
    ExampleLabelTexts();
    LabelsSnoc([], "A");
    LabelsSnoc(["A"], "B");
    LabelsSnoc(["A", "B"], "C");
  }

  lemma ExampleLabelTexts()
    ensures Label(1, "A") == "[[1]](A)"
    ensures Label(2, "B") == "[[2]](B)"
    ensures Label(3, "C") == "[[3]](C)"
  {
    OneDigitLabel(1, "A");
    OneDigitLabel(2, "B");
    OneDigitLabel(3, "C");
  }

  function WithSource(src: string): Doc {
    Doc("", Some(map[SourceKey := src]))
  }
}

=== FILE: contextualize.dfy ===
/** The gate in front of the query-rewrite chain: the first question of a
    conversation is used as it is; a follow-up question is rewritten by the
    chain, which sees the whole current log. */
module Contextualize {
  import opened Wrappers
  import opened History

  /** The rewrite chain, given the log and the new user text: the rewritten
      query, or None when the call raised. */
  type Rewriter = (seq<Message>, string) -> Option<string>

  /** The query handed to the retriever, or None when the rewrite failed. */
  function Contextualize(log: seq<Message>, userMsg: string, rewrite: Rewriter): (r: Option<string>)
    ensures log == [] ==> r == Some(userMsg)
    ensures log != [] ==> r == rewrite(log, userMsg)
    ensures r.None? ==> log != [] && rewrite(log, userMsg).None?
  {
    if |log| > 0 then rewrite(log, userMsg) else Some(userMsg)
  }

  /** With an empty log the rewrite chain is never consulted: any two chains,
      even one that always fails, give the same query, the user's own text. */
  lemma EmptyLogIgnoresRewriter(userMsg: string, f: Rewriter, g: Rewriter)
    ensures Contextualize([], userMsg, f) == Contextualize([], userMsg, g) == Some(userMsg)
  {
  }

  /** With a non-empty log the query is exactly the chain's output for that
      log and that text. */
  lemma NonEmptyLogUsesRewriter(log: seq<Message>, userMsg: string, rewrite: Rewriter)
    requires log != []
    ensures Contextualize(log, userMsg, rewrite) == rewrite(log, userMsg)
  {
  }
}

=== FILE: decimal.dfy ===
/** Decimal rendering of natural numbers, as Python's `str(n)` / f-string
    `{n}` produces it for a non-negative int, and its inverse. */
module Decimal {

  predicate IsDigit(c: char) {
    '0' <= c <= '9'
  }

  predicate AllDigits(s: string) {
    forall i :: 0 <= i < |s| ==> IsDigit(s[i])
  }

  function DigitChar(d: nat): (c: char)
    requires d < 10
    ensures IsDigit(c)
  {
    ('0' as int + d) as char
  }

  function DigitValue(c: char): (d: nat)
    requires IsDigit(c)
    ensures d < 10
    ensures DigitChar(d) == c
  {
    c as int - '0' as int
  }

  /** The shortest decimal numeral of `n`: digits only, never empty, and
      without a leading zero unless `n` is zero itself. */
  function NatToString(n: nat): (s: string)
    ensures |s| > 0
    ensures AllDigits(s)
    ensures s[0] == '0' <==> n == 0
  {
    if n < 10 then [DigitChar(n)]
    else NatToString(n / 10) + [DigitChar(n % 10)]
  }

  /** The value of a string of decimal digits, most significant first. */
  function ParseDigits(s: string): nat
    requires AllDigits(s)
  {
    if |s| == 0 then 0
    else 10 * ParseDigits(s[..|s| - 1]) + DigitValue(s[|s| - 1])
  }

  /** Reading back a rendered number yields the number. */
  lemma {:induction false} ParseNatToString(n: nat)
    ensures ParseDigits(NatToString(n)) == n
  {
    var s := NatToString(n);
    if n < 10 {
    } else {
      var p := NatToString(n / 10);
      assert s[..|s| - 1] == p;
      ParseNatToString(n / 10);
    }
  }

  /** The length of the longest all-digit prefix of `s`. */
  function LeadingDigits(s: string): (k: nat)
    ensures k <= |s|
    ensures AllDigits(s[..k])
    ensures k < |s| ==> !IsDigit(s[k])
  {
    if |s| == 0 || !IsDigit(s[0]) then 0
    else
      var k := 1 + LeadingDigits(s[1..]);
      assert s[..k] == [s[0]] + s[1..][..k - 1];
      k
  }

  /** A digit string followed by a non-digit is read as exactly that digit string. */
  lemma {:induction false} LeadingDigitsOfAppend(d: string, t: string)
    requires AllDigits(d)
    requires |t| > 0 && !IsDigit(t[0])
    ensures LeadingDigits(d + t) == |d|
  {
    if |d| > 0 {
      assert (d + t)[1..] == d[1..] + t;
      LeadingDigitsOfAppend(d[1..], t);
    }
  }
}

=== FILE: history.dfy ===
/** The conversation log kept across reruns: each committed turn appends the
    user's message and the assistant's answer, then the oldest entries are
    dropped so that at most `message_num` remain. */
module History {

  /** `HumanMessage` and `AIMessage`, each holding its text. */
  datatype Message = Human(content: string) | Assistant(content: string)

  /** Bounds of the history-size slider. */
  const MinMessageNum: int := 5
  const MaxMessageNum: int := 50

  /** A value the slider can show. */
  type MessageNum = n: int | MinMessageNum <= n <= MaxMessageNum witness MinMessageNum

  function Min(a: int, b: int): int {
    if a <= b then a else b
  }

  predicate IsSuffix<T(==)>(s: seq<T>, t: seq<T>) {
    |s| <= |t| && t[|t| - |s|..] == s
  }

  /** The log the clear button leaves behind. */
  function Cleared(): seq<Message> {
    []
  }

  /** The entries one turn appends: the raw user text, then the full answer. */
  function Exchange(userMsg: string, response: string): seq<Message> {
    [Human(userMsg), Assistant(response)]
  }

  /** The cap applied after each turn: a log longer than `n` keeps only its
      last `n` entries (Python's `log[-n:]`, `n` positive). */
  function Truncate(log: seq<Message>, n: nat): (r: seq<Message>)
    requires n > 0
    ensures |r| == Min(|log|, n)
    ensures IsSuffix(r, log)
    ensures |log| <= n ==> r == log
  {
    if |log| > n then log[|log| - n..] else log
  }

  /** One committed turn: append the exchange, then cap the length. */
  function Commit(log: seq<Message>, userMsg: string, response: string, messageNum: MessageNum): (r: seq<Message>)
    ensures |r| == Min(|log| + 2, messageNum)
    ensures IsSuffix(r, log + Exchange(userMsg, response))
    ensures r[|r| - 2..] == Exchange(userMsg, response)
    ensures |log| + 2 <= messageNum ==> r == log + Exchange(userMsg, response)
  {
    var extended := log + Exchange(userMsg, response);
    var r := Truncate(extended, messageNum);
    assert r[|r| - 2..] == extended[|extended| - 2..];
    r
  }

  /** After the clear button the next turn starts a fresh log holding exactly
      that turn's two messages. */
  lemma CommitAfterClear(userMsg: string, response: string, messageNum: MessageNum)
    ensures Commit(Cleared(), userMsg, response, messageNum) == [Human(userMsg), Assistant(response)]
  {
  }

  /** The last `n` entries of `p + a` are the last `n` of `a` when `a` has that many. */
  lemma SuffixOfAppend(p: seq<Message>, a: seq<Message>, n: nat)
    requires n <= |a|
    ensures (p + a)[|p + a| - n..] == a[|a| - n..]
  {
    var b := p + a;
    forall i | |b| - n <= i < |b|
      ensures b[i] == a[i - |p|]
    {
    }
    assert b[|b| - n..] == a[|a| - n..];
  }

  /** Appending the same entries to both sides keeps a suffix a suffix. */
  lemma SuffixExtend(s: seq<Message>, t: seq<Message>, e: seq<Message>)
    requires IsSuffix(s, t)
    ensures IsSuffix(s + e, t + e)
  {
    var p := t[..|t| - |s|];
    assert t == p + s;
    assert t + e == p + (s + e);
    SuffixOfAppend(p, s + e, |s + e|);
    assert (s + e)[|s + e| - |s + e|..] == s + e;
  }

  lemma SuffixTrans(r: seq<Message>, s: seq<Message>, t: seq<Message>)
    requires IsSuffix(r, s) && IsSuffix(s, t)
    ensures IsSuffix(r, t)
  {
    var p := t[..|t| - |s|];
    assert t == p + s;
    SuffixOfAppend(p, s, |r|);
  }

  /** A log capped once, extended, and capped again is the extended log capped
      once: truncation never loses anything a later cap would have kept. */
  lemma TruncateAbsorbs(x: seq<Message>, y: seq<Message>, n: nat)
    requires n > 0
    ensures Truncate(Truncate(x, n) + y, n) == Truncate(x + y, n)
  {
    if |x| > n {
      if |y| == 0 {
        assert x + y == x;
        assert Truncate(x, n) + y == Truncate(x, n);
      } else {
        TruncateAbsorbsLong(x, y, n);
      }
    }
  }

  /** The case of `TruncateAbsorbs` where both caps cut something. */
  lemma TruncateAbsorbsLong(x: seq<Message>, y: seq<Message>, n: nat)
    requires 0 < n < |x| && |y| > 0
    ensures Truncate(Truncate(x, n) + y, n) == Truncate(x + y, n)
  {
    var p := x[..|x| - n];
    var t := x[|x| - n..];
    var a := t + y;
    assert Truncate(x, n) == t;
    assert x + y == p + a by {
      assert x == p + t;
    }
    assert Truncate(a, n) == a[|a| - n..];
    assert Truncate(x + y, n) == (p + a)[|p + a| - n..];
    SuffixOfAppend(p, a, n);
  }

  /** One committed turn: the user text, the answer, and the cap the slider
      showed on that rerun. */
  datatype Turn = Turn(userMsg: string, response: string, messageNum: MessageNum)

  /** The uncapped conversation the turns add. */
  function Transcript(turns: seq<Turn>): seq<Message> {
    if |turns| == 0 then []
    else Transcript(turns[..|turns| - 1]) + Exchange(turns[|turns| - 1].userMsg, turns[|turns| - 1].response)
  }

  /** The log after committing `turns` one by one, each with its own cap. */
  function CommitAll(log: seq<Message>, turns: seq<Turn>): seq<Message> {
    if |turns| == 0 then log
    else
      var last := turns[|turns| - 1];
      Commit(CommitAll(log, turns[..|turns| - 1]), last.userMsg, last.response, last.messageNum)
  }

  /** Whatever the slider showed on each rerun, the log is a run of the most
      recent messages of the whole conversation, in their original order. */
  lemma {:induction false} CommitAllIsSuffix(log: seq<Message>, turns: seq<Turn>)
    ensures IsSuffix(CommitAll(log, turns), log + Transcript(turns))
  {
    if |turns| == 0 {
      assert log + Transcript(turns) == log;
      assert log[|log| - |log|..] == log;
    } else {
      var init := turns[..|turns| - 1];
      var last := turns[|turns| - 1];
      var prev := CommitAll(log, init);
      var e := Exchange(last.userMsg, last.response);
      CommitAllIsSuffix(log, init);
      SuffixExtend(prev, log + Transcript(init), e);
      TranscriptSnoc(log, turns);
      SuffixTrans(CommitAll(log, turns), prev + e, log + Transcript(turns));
    }
  }

  /** After a committed turn the log is within that turn's cap, whatever the
      earlier caps were, and ends with that turn's exchange. */
  lemma CommitAllLastTurn(log: seq<Message>, turns: seq<Turn>)
    requires |turns| > 0
    ensures |CommitAll(log, turns)| <= turns[|turns| - 1].messageNum
    ensures
      var r := CommitAll(log, turns);
      r[|r| - 2..] == Exchange(turns[|turns| - 1].userMsg, turns[|turns| - 1].response)
  {
  }

  /** Every turn of `turns` was committed under the cap `messageNum`. */
  predicate FixedCap(turns: seq<Turn>, messageNum: MessageNum) {
    forall i :: 0 <= i < |turns| ==> turns[i].messageNum == messageNum
  }

  /** History bound with the slider left alone: after any number of turns the
      log holds at most `message_num` entries, and they are exactly the most
      recent ones of the whole conversation, in their original order. */
  lemma {:induction false} CommitAllKeepsMostRecent(log: seq<Message>, turns: seq<Turn>, messageNum: MessageNum)
    requires FixedCap(turns, messageNum)
    requires |log| <= messageNum
    ensures CommitAll(log, turns) == Truncate(log + Transcript(turns), messageNum)
    ensures |CommitAll(log, turns)| <= messageNum
  {
    if |turns| == 0 {
      assert log + Transcript(turns) == log;
    } else {
      var init := turns[..|turns| - 1];
      var last := turns[|turns| - 1];
      FixedCapPrefix(turns, messageNum);
      CommitAllKeepsMostRecent(log, init, messageNum);
      CommitTruncated(log + Transcript(init), CommitAll(log, init), last.userMsg, last.response, messageNum);
      TranscriptSnoc(log, turns);
    }
  }

  lemma TranscriptSnoc(log: seq<Message>, turns: seq<Turn>)
    requires |turns| > 0
    ensures log + Transcript(turns) ==
      log + Transcript(turns[..|turns| - 1]) + Exchange(turns[|turns| - 1].userMsg, turns[|turns| - 1].response)
  {
  }

  lemma FixedCapPrefix(turns: seq<Turn>, messageNum: MessageNum)
    requires |turns| > 0 && FixedCap(turns, messageNum)
    ensures FixedCap(turns[..|turns| - 1], messageNum)
    ensures turns[|turns| - 1].messageNum == messageNum
  {
    var init := turns[..|turns| - 1];
    forall i | 0 <= i < |init| ensures init[i].messageNum == messageNum {
      assert init[i] == turns[i];
    }
  }

  /** Committing onto a capped log is capping the extended conversation. */
  lemma CommitTruncated(x: seq<Message>, prev: seq<Message>, userMsg: string, response: string, messageNum: MessageNum)
    requires prev == Truncate(x, messageNum)
    ensures Commit(prev, userMsg, response, messageNum) == Truncate(x + Exchange(userMsg, response), messageNum)
  {
    TruncateAbsorbs(x, Exchange(userMsg, response), messageNum);
  }

  /** A commit cuts a log left longer than the current cap, by an earlier and
      larger slider value, to exactly that cap. */
  lemma CommitCutsToCap(log: seq<Message>, userMsg: string, response: string, messageNum: MessageNum)
    requires |log| > messageNum
    ensures |Commit(log, userMsg, response, messageNum)| == messageNum < |log|
  {
  }
}

=== FILE: streaming.dfy ===
/** Accumulating a streamed answer: every fragment is appended to the answer
    so far, each partial render shows the answer so far followed by a cursor,
    and the final render shows the full answer alone. */
module Streaming {

  /** One streamed chunk of the generation chain; only its text is used. */
  datatype Fragment = Fragment(content: string)

  /** The cursor drawn after a partial answer. */
  const Cursor: char := '■'

  /** The text of `fs`, left to right. */
  function Concat(fs: seq<Fragment>): string {
    if |fs| == 0 then ""
    else Concat(fs[..|fs| - 1]) + fs[|fs| - 1].content
  }

  /** Concatenation distributes over splitting the fragment list. */
  lemma {:induction false} ConcatAppend(a: seq<Fragment>, b: seq<Fragment>)
    ensures Concat(a + b) == Concat(a) + Concat(b)
  {
    if |b| > 0 {
      var b' := b[..|b| - 1];
      assert (a + b)[..|a + b| - 1] == a + b';
      ConcatAppend(a, b');
    } else {
      assert a + b == a;
    }
  }

  /** The text of the first `i` fragments is a prefix of the text of the first `j`. */
  lemma ConcatPrefix(fs: seq<Fragment>, i: nat, j: nat)
    requires i <= j <= |fs|
    ensures var p := Concat(fs[..i]); var q := Concat(fs[..j]); |p| <= |q| && q[..|p|] == p
  {
    assert fs[..j] == fs[..i] + fs[i..j];
    ConcatAppend(fs[..i], fs[i..j]);
  }

  /** The partial renders while the stream runs: after the i-th fragment
      (counting from 1), the text of the first i fragments and the cursor. */
  function Partials(fs: seq<Fragment>): (r: seq<string>)
    ensures |r| == |fs|
    ensures forall i :: 0 <= i < |fs| ==> r[i] == Concat(fs[..i + 1]) + [Cursor]
  {
    if |fs| == 0 then []
    else
      var prev := Partials(fs[..|fs| - 1]);
      forall i | 0 <= i < |fs| - 1
        ensures prev[i] == Concat(fs[..i + 1]) + [Cursor]
      {
        assert fs[..|fs| - 1][..i + 1] == fs[..i + 1];
      }
      assert fs[..|fs|] == fs;
      prev + [Concat(fs) + [Cursor]]
  }

  /** Everything rendered into the answer placeholder, in order: the partial
      renders, then the final one. */
  function Renders(fs: seq<Fragment>): (r: seq<string>)
    ensures |r| == |fs| + 1
    ensures forall i :: 0 <= i < |fs| ==> r[i] == Concat(fs[..i + 1]) + [Cursor]
    ensures r[|fs|] == Concat(fs)
  {
    Partials(fs) + [Concat(fs)]
  }

  /** The answer and the renders, computed as the application does: one pass
      over the fragments, growing the answer and rendering it with the cursor,
      then one last render without it. */
  method StreamResponse(fs: seq<Fragment>) returns (response: string, renders: seq<string>)
    ensures response == Concat(fs)
    ensures renders == Renders(fs)
  {
    response := "";
    renders := [];
    var i := 0;
    while i < |fs|
      invariant 0 <= i <= |fs|
      invariant response == Concat(fs[..i])
      invariant renders == Partials(fs[..i])
    {
      assert fs[..i + 1][..i] == fs[..i];
      response := response + fs[i].content;
      renders := renders + [response + [Cursor]];
      i := i + 1;
    }
    assert fs[..|fs|] == fs;
    renders := renders + [response];
  }

  /** Each partial render, without its cursor, is a prefix of the final answer:
      the visible answer only ever grows. */
  lemma PartialIsPrefixOfAnswer(fs: seq<Fragment>, i: nat)
    requires i < |fs|
    ensures var p := Renders(fs)[i];
            var answer := Renders(fs)[|fs|];
            |p| >= 1 && p[|p| - 1] == Cursor &&
            |p| - 1 <= |answer| && answer[..|p| - 1] == p[..|p| - 1]
  {
    ConcatPrefix(fs, i + 1, |fs|);
    assert fs[..|fs|] == fs;
    var p := Renders(fs)[i];
    assert p == Concat(fs[..i + 1]) + [Cursor];
    assert p[..|p| - 1] == Concat(fs[..i + 1]);
  }
}

=== FILE: turns.dfy ===
/** One rerun of the chat page: initialise the log, honour the clear button,
    and, when the user sent a message, run the turn — contextualise, retrieve,
    stream the answer, cite the sources, commit the exchange. The rewrite
    chain, the retriever and the generation chain are parameters; a call that
    raises ends the rerun before the log is touched. */
module Turns {
  import opened Wrappers
  import opened History
  import Citations
  import Contextualize
  import Streaming

  /** What one generation call yields: the fragments produced, and whether
      the stream ran to its end (false: it raised after those fragments). */
  datatype Stream = Stream(fragments: seq<Streaming.Fragment>, completed: bool)

  /** The three collaborators a turn calls. */
  datatype Chains = Chains(
    rewrite: Contextualize.Rewriter,
    retrieve: string -> Option<seq<Citations.Doc>>,
    generate: (seq<Message>, seq<Citations.Doc>, string) -> Stream)

  datatype TurnResult =
    | Committed(query: string, docs: seq<Citations.Doc>, renders: seq<string>,
                response: string, citations: Option<string>, log: seq<Message>)
    | Aborted(log: seq<Message>)

  /** The documents the retriever returns for the (possibly rewritten)
      question; None when the rewrite or the retrieval raises. */
  function Retrieved(log: seq<Message>, userMsg: string, chains: Chains): Option<seq<Citations.Doc>> {
    match Contextualize.Contextualize(log, userMsg, chains.rewrite)
    case None => None
    case Some(query) => chains.retrieve(query)
  }

  /** Every collaborator of the turn returns: the rewrite (when it is called),
      the retrieval, and the whole answer stream. */
  predicate TurnSucceeds(log: seq<Message>, userMsg: string, chains: Chains) {
    Retrieved(log, userMsg, chains).Some? &&
    chains.generate(log, Retrieved(log, userMsg, chains).value, userMsg).completed
  }

  /** The full answer text of a turn whose collaborators all return. */
  function Answer(log: seq<Message>, userMsg: string, chains: Chains): string
    requires TurnSucceeds(log, userMsg, chains)
  {
    Streaming.Concat(chains.generate(log, Retrieved(log, userMsg, chains).value, userMsg).fragments)
  }

  /** The turn for a non-empty user message against the pre-turn log. */
  function RunTurn(log: seq<Message>, userMsg: string, chains: Chains, messageNum: MessageNum): (r: TurnResult)
    // atomic: a failing collaborator leaves the log as it was
    ensures r.Aborted? ==> r.log == log
    ensures r.Committed? <==>
      && Contextualize.Contextualize(log, userMsg, chains.rewrite).Some?
      && chains.retrieve(Contextualize.Contextualize(log, userMsg, chains.rewrite).value).Some?
      && chains.generate(log, chains.retrieve(Contextualize.Contextualize(log, userMsg, chains.rewrite).value).value, userMsg).completed
    ensures r.Committed? ==>
      // the retriever is asked the rewritten question, or on a first turn the text as typed
      && r.query == Contextualize.Contextualize(log, userMsg, chains.rewrite).value
      && (log == [] ==> r.query == userMsg)
      && chains.retrieve(r.query) == Some(r.docs)
      // the answer is generated for the raw text and the pre-turn log, not the rewrite
      && r.response == Streaming.Concat(chains.generate(log, r.docs, userMsg).fragments)
      && r.renders == Streaming.Renders(chains.generate(log, r.docs, userMsg).fragments)
      && r.citations == Citations.CitationLine(r.docs)
      // exactly the raw text and the full answer are committed, within the cap
      && |r.log| == Min(|log| + 2, messageNum)
      && IsSuffix(r.log, log + [Human(userMsg), Assistant(r.response)])
      && r.log[|r.log| - 2] == Human(userMsg)
      && r.log[|r.log| - 1] == Assistant(r.response)
  {
    match Contextualize.Contextualize(log, userMsg, chains.rewrite)
    case None => Aborted(log)
    case Some(query) =>
      match chains.retrieve(query)
      case None => Aborted(log)
      case Some(docs) =>
        var stream := chains.generate(log, docs, userMsg);
        if !stream.completed then Aborted(log)
        else
          var response := Streaming.Concat(stream.fragments);
          var newLog := Commit(log, userMsg, response, messageNum);
          assert newLog[|newLog| - 2..] == [Human(userMsg), Assistant(response)];
          Committed(query, docs, Streaming.Renders(stream.fragments), response,
                    Citations.CitationLine(docs), newLog)
  }

  /** The log a rerun starts its turn from: empty after the clear button,
      otherwise the session's log (empty on the very first rerun). */
  function BaseLog(state: Option<seq<Message>>, clearPressed: bool): seq<Message> {
    if clearPressed then Cleared() else state.GetOr([])
  }

  /** The chat log after one rerun: `state` is the log kept in the session
      (None before the first rerun), `input` what the chat box delivered. */
  function Rerun(state: Option<seq<Message>>, clearPressed: bool, input: Option<string>,
                 chains: Chains, messageNum: MessageNum): (r: seq<Message>)
    ensures (input.None? || input.value == "") ==> r == BaseLog(state, clearPressed)
    ensures input.Some? && input.value != "" ==>
      var base := BaseLog(state, clearPressed);
      if TurnSucceeds(base, input.value, chains) then
        && |r| == Min(|base| + 2, messageNum)
        && r[|r| - 2] == Human(input.value)
        && r[|r| - 1] == Assistant(Answer(base, input.value, chains))
        && IsSuffix(r, base + Exchange(input.value, Answer(base, input.value, chains)))
      else r == base
    ensures |state.GetOr([])| <= messageNum ==> |r| <= messageNum
    ensures clearPressed ==> |r| <= 2
  {
    var log := BaseLog(state, clearPressed);
    if input.None? || input.value == "" then log
    else RunTurn(log, input.value, chains, messageNum).log
  }

  /** One rerun: the user's actions, the history-size slider's value, and the
      collaborators built for it. `main()` builds the chains and the retriever
      afresh on every rerun, from sliders read on that rerun and an index the
      upload pages may have rewritten, so they can behave differently each
      time. */
  datatype Event = Event(clearPressed: bool, input: Option<string>, messageNum: MessageNum, chains: Chains)

  /** What the session holds between reruns, together with the whole
      conversation committed since the session began or the clear button was
      last pressed. */
  datatype Session = Session(log: seq<Message>, conversation: seq<Message>)

  /** A rerun commits an exchange: there is a message and the turn succeeds. */
  predicate Commits(s: Session, e: Event) {
    e.input.Some? && e.input.value != "" &&
    TurnSucceeds(BaseLog(Some(s.log), e.clearPressed), e.input.value, e.chains)
  }

  /** One rerun applied to a session, under that rerun's slider value. */
  function Step(s: Session, e: Event): (r: Session)
    ensures r.log == Rerun(Some(s.log), e.clearPressed, e.input, e.chains, e.messageNum)
    ensures Commits(s, e) ==> |r.log| <= e.messageNum
    // a committed exchange extends the conversation since the last clear
    ensures Commits(s, e) ==>
      r.conversation == BaseLog(Some(s.conversation), e.clearPressed) +
        Exchange(e.input.value, Answer(BaseLog(Some(s.log), e.clearPressed), e.input.value, e.chains))
    ensures !Commits(s, e) ==> r == (if e.clearPressed then Session([], []) else s)
  {
    var base := if e.clearPressed then Session(Cleared(), []) else s;
    if e.input.None? || e.input.value == "" then base
    else
      match RunTurn(base.log, e.input.value, e.chains, e.messageNum)
      case Aborted(_) => base
      case Committed(_, _, _, response, _, log) =>
        Session(log, base.conversation + Exchange(e.input.value, response))
  }

  /** The session after a run of reruns, starting from a fresh session. */
  function Replay(events: seq<Event>): Session {
    if |events| == 0 then Session([], [])
    else Step(Replay(events[..|events| - 1]), events[|events| - 1])
  }

  /** Whatever the slider showed on each rerun, the log is a run of the most
      recent messages of the conversation since the last clear, in order. */
  lemma {:induction false} ReplayLogIsSuffix(events: seq<Event>)
    ensures IsSuffix(Replay(events).log, Replay(events).conversation)
  {
    if |events| == 0 {
      assert IsSuffix<Message>([], []);
    } else {
      ReplayLogIsSuffix(events[..|events| - 1]);
      StepKeepsSuffix(Replay(events[..|events| - 1]), events[|events| - 1]);
    }
  }

  /** One rerun keeps the log a suffix of the conversation. */
  lemma StepKeepsSuffix(s: Session, e: Event)
    requires IsSuffix(s.log, s.conversation)
    ensures IsSuffix(Step(s, e).log, Step(s, e).conversation)
  {
    var base := if e.clearPressed then Session(Cleared(), []) else s;
    assert IsSuffix(base.log, base.conversation);
    if Commits(s, e) {
      var t := RunTurn(base.log, e.input.value, e.chains, e.messageNum);
      var x := Exchange(e.input.value, t.response);
      assert Step(s, e) == Session(t.log, base.conversation + x);
      SuffixExtend(base.log, base.conversation, x);
      SuffixTrans(t.log, base.log + x, base.conversation + x);
    }
  }

  /** History bound: no run of reruns, whatever each rerun's collaborators do
      and however the slider moves, grows the log past the slider's maximum; and
      right after a rerun that commits, the log is within that rerun's value. */
  lemma {:induction false} RerunsStayBounded(events: seq<Event>)
    ensures |Replay(events).log| <= MaxMessageNum
    ensures |events| > 0 && Commits(Replay(events[..|events| - 1]), events[|events| - 1]) ==>
      |Replay(events).log| <= events[|events| - 1].messageNum
  {
    if |events| > 0 {
      RerunsStayBounded(events[..|events| - 1]);
    }
  }

  /** Every rerun of `events` had the slider at `messageNum`. */
  predicate SliderFixed(events: seq<Event>, messageNum: MessageNum) {
    forall i :: 0 <= i < |events| ==> events[i].messageNum == messageNum
  }

  /** With the slider left alone the log is exactly the last `message_num`
      messages of the conversation since the last clear. */
  lemma {:induction false} FixedSliderKeepsMostRecent(events: seq<Event>, messageNum: MessageNum)
    requires SliderFixed(events, messageNum)
    ensures Replay(events).log == Truncate(Replay(events).conversation, messageNum)
  {
    if |events| > 0 {
      var init := events[..|events| - 1];
      var s := Replay(init);
      assert SliderFixed(init, messageNum) by {
        forall i | 0 <= i < |init| ensures init[i].messageNum == messageNum {
          assert init[i] == events[i];
        }
      }
      FixedSliderKeepsMostRecent(init, messageNum);
      StepKeepsTruncated(s, events[|events| - 1], messageNum);
    }
  }

  /** One rerun at the slider value a log was capped with keeps it capped. */
  lemma StepKeepsTruncated(s: Session, e: Event, messageNum: MessageNum)
    requires e.messageNum == messageNum
    requires s.log == Truncate(s.conversation, messageNum)
    ensures Step(s, e).log == Truncate(Step(s, e).conversation, messageNum)
  {
    var base := if e.clearPressed then Session(Cleared(), []) else s;
    assert base.log == Truncate(base.conversation, messageNum);
    if Commits(s, e) {
      var t := RunTurn(base.log, e.input.value, e.chains, messageNum);
      var x := Exchange(e.input.value, t.response);
      assert t.log == Commit(base.log, e.input.value, t.response, messageNum);
      assert Step(s, e) == Session(t.log, base.conversation + x);
      CommitTruncated(base.conversation, base.log, e.input.value, t.response, messageNum);
    }
  }

  /** Moving the slider below the log's length shortens nothing on a rerun
      without a message: the longer log stays, and is what the next turn's
      chains receive, until that turn's commit cuts it. */
  lemma LoweredSliderKeepsLog(s: Session, chains: Chains, messageNum: MessageNum)
    requires |s.log| > messageNum
    ensures Step(s, Event(false, None, messageNum, chains)) == s
  {
  }

  /** A turn that failed can be sent again and succeed: the collaborators of
      the retry are built afresh, so the failure leaves no trace and the
      retry commits exactly its exchange. */
  lemma RetryAfterFailure(userMsg: string, messageNum: MessageNum, failing: Chains, working: Chains)
    requires userMsg != ""
    requires !TurnSucceeds([], userMsg, failing) && TurnSucceeds([], userMsg, working)
    ensures Replay([Event(false, Some(userMsg), messageNum, failing)]).log == []
    ensures Replay([Event(false, Some(userMsg), messageNum, failing), Event(false, Some(userMsg), messageNum, working)]).log
      == [Human(userMsg), Assistant(Answer([], userMsg, working))]
  {
    var e1 := Event(false, Some(userMsg), messageNum, failing);
    var e2 := Event(false, Some(userMsg), messageNum, working);
    assert [e1, e2][..1] == [e1];
    assert [e1][..0] == [];
    assert Replay([e1]) == Session([], []);
    assert Commits(Session([], []), e2);
  }

  /** A stream that raises part-way commits nothing: the log after the rerun
      is the log before it, however many fragments had been shown. */
  lemma FailedStreamCommitsNothing(log: seq<Message>, userMsg: string, chains: Chains, messageNum: MessageNum)
    requires userMsg != ""
    requires Contextualize.Contextualize(log, userMsg, chains.rewrite).Some?
    requires var q := Contextualize.Contextualize(log, userMsg, chains.rewrite).value;
             chains.retrieve(q).Some? && !chains.generate(log, chains.retrieve(q).value, userMsg).completed
    ensures Rerun(Some(log), false, Some(userMsg), chains, messageNum) == log
  {
  }
}

=== FILE: wrappers.dfy ===
/** Optional values: Python's `None` versus a present value, and a collaborator
    call that either returned or raised. */
module Wrappers {

  datatype Option<+T> = None | Some(value: T) {

    /** The value, or `default` when there is none (Python's `x or default`). */
    function GetOr(default: T): T {
      match this
      case Some(v) => v
      case None => default
    }
  }
}
